=== FILE: README.md ===
# Location resolver of the NYC missed-connections board

This project models, in Dafny, the geocoder at the heart of the board. The
geocoder is `geocodeNYCLocation` in `index.js`, which turns a free-text New
York City location into coordinates. The model also covers the decisions of
the two HTTP handlers that call it.

- **Normaliser.** The text is upper-cased and trimmed. The regular expression
  `^(\d+)\s+(.+?)(?:,\s*(.+))?$` then splits it into a house number, a
  street and optional borough text. The borough text goes through a
  five-entry alias table (modules `Text`, `HousePattern` and `Query`).
  `HousePattern.Match` follows the backtracking order of JavaScript's regex
  engine, so it returns the split `match` returns, not just any split that
  fits.
- **`$where` builder.** The Socrata clauses are pushed onto a list in order
  and joined with ` AND `. The user's text is pasted in without escaping
  (`Query.BuildParams`).
- **Resolution chain.** Three NYC Open Data endpoints are tried in declared
  order with the same parameters. The first reply with a usable first row
  wins. Thrown requests and empty replies move on to the next endpoint. At
  the end comes one Nominatim free-text search, and if that fails too, the
  result is `null` (`Resolver.Geocode` and its endpoint loop
  `Resolver.TryEndpoints`, specified by `Resolver.Resolve` and the ghost
  request log `Resolver.Trace`).
- **Handlers.** `GET /api/geocode` maps to 400, 200, 404 or 500.
  `POST /api/connections` validates the body, geocodes (unless the client
  sent coordinates), assembles the record, stores it, and broadcasts it
  (`Routes`).

Network replies are inputs. Each endpoint is a function from the request
(URL and parameters) to a reply: it throws, or it returns a list of rows.
So every property below holds for every state of the remote datasets. The
store is an input in the same way.

Where one might expect otherwise, the model follows the code:
- A row whose coordinates are not numeric still wins. The code never checks
  them (`Resolver.NonNumericCoordinateWins`).
- Only a missing or empty query is rejected. A query of blanks is not. It
  normalizes to the empty string, and its clause
  `UPPER(street_name) LIKE '%%'` matches every non-null street name
  (`Query.BlankQueryMatchesAnyStreet`).
- The fallback searches the caller's raw text plus
  `, New York City, NY, USA`. That text is neither trimmed nor upper-cased.
- Borough text maps to a canonical name only when it equals one of the five
  upper-case keys exactly. Anything else passes through unchanged.
- `POST /api/connections` answers a failed lookup with 400, not 404.

## Model

| member | source | states |
|---|---|---|
| `Text.ToUpper` | index.js:45 | upper-casing keeps the length, turns each ASCII lower-case letter into its upper-case letter, and changes nothing else |
| `Text.Trim` | index.js:45 | the result is trimmed; it is empty exactly when the input is all white space; otherwise it is the piece after the leading white space, and only white space follows it |
| `Query.Normalize` | index.js:45 | the normalized text is trimmed and has no lower-case letter |
| `Query.NormalizeIdempotent` | index.js:45 | normalizing twice gives the same text as normalizing once |
| `HousePattern.TryBorough` | index.js:46 | the greedy `\s*(.+)$` after the comma yields the largest borough start from which the rest of the text has no line break, or fails when there is none |
| `HousePattern.TryTail` | index.js:46 | the optional borough group and `$` succeed exactly when the group fits or the text ends; the group is preferred |
| `HousePattern.TryStreet` | index.js:46 | the lazy street is the shortest one the rest of the pattern accepts; it fails only when no longer street would be accepted |
| `HousePattern.TrySpaces` | index.js:46 | the greedy `\s+` yields a split that fits the pattern, and fails only when no street start in its range leads to a match |
| `HousePattern.TryDigits` | index.js:46 | the greedy `\d+` yields only splits that fit the pattern |
| `HousePattern.Match` | index.js:46 | every split returned fits the whole pattern: digits, white space, a street without line breaks, then either the end of the text or a comma, white space and a borough |
| `HousePattern.MatchComplete` | index.js:46 | when any split fits the pattern, `match` does not return `null` |
| `HousePattern.FitsHouseIsDigitRun` | index.js:46 | the captured house number is always the whole leading run of digits |
| `HousePattern.StructuredIff` | index.js:45-46 | on normalized text without line breaks, the pattern matches exactly when the text starts with digits, then white space, then at least one more character |
| `HousePattern.FirstChoiceKept` | index.js:46 | on such text the street starts right after all the white space that follows the house number |
| `HousePattern.LazyStreet` | index.js:46 | the street stops at the first comma after its own first character that has something after it |
| `HousePattern.GreedyBoroughSpaces` | index.js:46 | on trimmed text without line breaks, the borough starts after all the white space that follows the comma |
| `HousePattern.StructuredSplit` | index.js:46-58 | the full split of normalized text: house number = leading digit run; street = from after the white space to the first comma after the street's first character that has text after it; a borough exactly when such a comma exists |
| `Query.BoroughNameIff` | index.js:63-71 | upper-case borough text maps to a canonical borough name exactly when it is one of the five keys, and that name upper-cases back to the key; other text passes through unchanged |
| `Query.BuildParams` | index.js:49-80 | the pushed clauses joined with ` AND ` are the `$where` of the parameters, with `$limit` 5 and the fixed `$select`; `$where` is always set |
| `Query.WhereStructured` | index.js:54-79 | structured input gives `house_number='<h>' AND UPPER(street_name) LIKE '%<street>%'`, followed by ` AND boroname='<b>'` only when a borough was captured |
| `Query.WhereUnstructured` | index.js:74-80 | unstructured input gives the one clause `UPPER(street_name) LIKE '%<normalized text>%'` |
| `Query.NormalizedWhere` | index.js:45-80 | when the normalized text has no line break (line breaks at either end of the raw text are trimmed away), it is structured exactly when it starts with digits, white space and more, and then the house number is the whole digit run and the street starts after all the white space; otherwise one street clause on the whole normalized text |
| `Query.BlankQueryMatchesAnyStreet` | index.js:45-79 | a query of blanks normalizes to the empty string, and yields the clause `UPPER(street_name) LIKE '%%'`, which matches every non-null street name |
| `Query.NormalizeKeepsQuotes` | index.js:45 | upper-casing and trimming keep exactly the quotes the user typed, no more and no fewer |
| `Query.StreetClauseQuotes` | index.js:75 | the street clause holds the quotes of the pasted text plus the two that delimit its literal |
| `Query.QuoteIsNotEscaped` | index.js:45-79 | for text with a quote that the house-number pattern does not match, `$where` is the one `LIKE` clause on the normalized text, and it holds exactly the user's quotes plus the two that delimit its literal, so more than two |
| `Query.QuoteExample` | index.js:74-79 | `x' or '1'='1` gives `UPPER(street_name) LIKE '%X' OR '1'='1%'` |
| `Query.StructuredExample` | index.js:45-79 | `123 Main St, brooklyn` gives house number `123`, street `MAIN ST` and borough `Brooklyn` |
| `Resolver.FormatAddress` | index.js:98 | the formatted NYC address always holds a comma, so it is never empty |
| `Resolver.FormatAddressPlain` | index.js:98 | with a house number and a borough that have no outer white space, the address is `<house> <street>, <borough>`, with a missing street read as empty |
| `Resolver.FormatAddressEmpty` | index.js:98 | a row without any address field formats as `,` |
| `Resolver.FormatExample` | index.js:98 | house `123`, street `MAIN STREET` and borough `Brooklyn` format as `123 MAIN STREET, Brooklyn` |
| `Resolver.Geocode` | index.js:36-134 | normalizing, building the parameters and running the endpoint loop yields `Resolve`, and sends exactly the requests of `Trace`, in order |
| `Resolver.TryEndpoints` | index.js:83-133 | the loop over any endpoint list, with its early return on the first usable row and its fallback, yields `ResolveFrom` and sends exactly the requests of `TraceFrom` |
| `Resolver.FirstUsableSourceDecides` | index.js:83-100 | the first endpoint whose reply has a usable first row decides the result, built from that row whatever its coordinates; only the endpoints up to it are asked, all with the same parameters, and the fallback is not asked |
| `Resolver.AllSourcesFailed` | index.js:83-133 | when all three endpoints fail, all three are asked in order, then the fallback with the raw text plus `, New York City, NY, USA`, and its outcome is the result |
| `Resolver.NotFoundFrom` | index.js:83-133 | over any endpoint list, nothing is found exactly when every endpoint fails and the fallback yields nothing |
| `Resolver.TraceShapeFrom` | index.js:83-116 | over any endpoint list, the fallback is asked exactly when every endpoint failed, and each NYC request goes to the endpoint of its position |
| `Resolver.NotFoundIff` | index.js:83-133 | the result is `null` exactly when all three endpoints and the fallback fail |
| `Resolver.FallbackOnlyAfterAllFail` | index.js:83-116 | the fallback is asked exactly when all three endpoints failed, and the k-th NYC request goes to the k-th endpoint with the common parameters |
| `Resolver.OnlyFirstRowsMatter` | index.js:91-104 | a thrown request, an empty reply and a reply whose first element is `null` are handled alike, and rows after the first are never read |
| `Resolver.BrooklynExample` | index.js:91-99 | a first-endpoint row `123`/`MAIN STREET`/`Brooklyn` gives `123 MAIN STREET, Brooklyn` with its parsed coordinates, and nothing else is asked |
| `Resolver.NonNumericCoordinateWins` | index.js:91-99 | a first row whose latitude is not a number still decides the result, and no other endpoint is asked |
| `Routes.GetGeocode` | index.js:151-168 | missing or empty `q` → 400; a non-string `q` → 500; otherwise 200 with the result, or 404 when it is `null`; 500 happens only for a non-string `q` |
| `Routes.NewConnection` | index.js:188-199 | the `||` defaults leave no field of the stored document empty; the title is the client's or `anonymous`, the location is the formatted address or the client's text, and the coordinates are the geocoding result's |
| `Routes.PostConnection` | index.js:171-211 | missing location or description → 400; client coordinates skip the geocoder; not found → 400; stored → 201 and broadcast; store failure → 500 and no broadcast; a broadcast happens exactly on 201 |
| `Routes.NycAddressIsStored` | index.js:188-199 | after a NYC hit, the stored location is the formatted address of the row, so the `|| location` fallback is never taken |
| `Routes.UnnamedPlaceKeepsClientText` | index.js:188-199 | after a fallback hit without a display name, the client's text is stored as the location |

## Left out

- Express, CORS, static files, the MongoDB connection, the socket.io server and server start-up (index.js:1-34, 214-237): these are transport and plumbing.
- `GET /api/connections` (index.js:139-148): it only lists stored records through the persistence library.
- The HTTP transport of `axios`, the 5000 ms timeouts and the `User-Agent` header: each request is an input reply, `Thrown` or `Data`.
- `encodeURIComponent` and the assembly of the Nominatim URL: the request records the unencoded search text and the fixed `format`, `limit` and `countrycodes` values.
- `parseFloat`: a coordinate is the symbolic `ParseFloat(field)`; numbers, NaN and floating point are not modelled.
- Query.QuoteIsNotEscaped: the quote count is stated for text the house-number pattern does not match. Structured text pastes its street and borough text in the same way (`Query.WhereStructured`), but no quote count is stated for it.
- Strings are sequences of Unicode scalar values, not JavaScript's UTF-16 code units. A lone surrogate cannot be represented, so the case where `encodeURIComponent` (index.js:111) throws on one, and the fallback then yields `null`, is not modelled.
- Text.ToUpper: only ASCII `a`-`z` is upper-cased. JavaScript's other Unicode case mappings are not modelled, including those that change the length, such as `ß` to `SS`.
- The `console.log` diagnostics. The field reads of the log line at index.js:93 are kept, because reading a field of a `null` first row throws and skips the endpoint.
- JSON values of unexpected kinds are not modelled: a number or object as `location`, `description` or `title`, or a non-object truthy `coordinates`. The fields are strings or absent, and `coordinates` is absent or a `{lat, lng, formattedAddress}` value.
- What mongoose does on `save` (trimming, `required` validation, the `createdAt` default, the `_id`): the store is an input that accepts the document or throws with a message. The 201 body is the document handed to it.
- `io.emit`: the broadcast is returned as the record it would carry.
- public/map.js (the map UI), geocode.js (a fetch wrapper index.js does not use) and models/missedconnection.js (a declarative schema).
- HousePattern.StructuredIff: the exact characterisation is stated for text without line terminators. For text with line breaks, `HousePattern.Match` and `HousePattern.MatchComplete` still give soundness and completeness against the pattern.
- Determinism: repeating a query with unchanged replies gives the same result. This holds by construction, because `Resolver.Resolve` is a function of the text and the replies.

=== FILE: house_pattern.dfy ===
/**
 * The regular expression `^(\d+)\s+(.+?)(?:,\s*(.+))?$` that splits a
 * location into house number, street and borough text (index.js line 46).
 *
 * `Match` searches the way a backtracking regular-expression engine does:
 * the greedy `\d+`, `\s+` and `\s*` try their longest run first and then
 * shorter ones, the lazy `.+?` tries its shortest street first and then
 * longer ones, and the optional borough group is tried before it is
 * skipped. So the split it returns is the one JavaScript's `match` returns,
 * not just some split that fits the pattern.
 */
module HousePattern {
  import opened Wrappers
  import opened Text

  /**
   * Where the three capture groups sit in `s`: the house number is
   * `s[..houseEnd]`, the street `s[streetStart..streetEnd]` and, when the
   * borough group took part, the borough `s[boroughStart..]`.
   */
  datatype Split = Split(houseEnd: nat, streetStart: nat, streetEnd: nat, boroughStart: Option<nat>)

  /** `(.+)$` matches from `b`: at least one character, none a line break. */
  predicate RestFits(s: string, b: nat) {
    b < |s| && NoBreakIn(s, b, |s|)
  }

  /** `,\s*(.+)$` matches from `e`, with the borough starting at `b`. */
  predicate GroupFits(s: string, e: nat, b: nat) {
    e < |s| && s[e] == ',' && e + 1 <= b <= |s| && SpacesIn(s, e + 1, b) && RestFits(s, b)
  }

  /** `(?:,\s*(.+))?$` matches from `e`, with the group at `g` or skipped. */
  predicate TailFits(s: string, e: nat, g: Option<nat>) {
    match g
    case Some(b) => GroupFits(s, e, b)
    case None => e == |s|
  }

  /** `sp` is a way for the whole pattern to match all of `s`. */
  predicate Fits(s: string, sp: Split) {
    0 < sp.houseEnd < sp.streetStart < sp.streetEnd <= |s|
    && DigitsIn(s, 0, sp.houseEnd)
    && SpacesIn(s, sp.houseEnd, sp.streetStart)
    && NoBreakIn(s, sp.streetStart, sp.streetEnd)
    && TailFits(s, sp.streetEnd, sp.boroughStart)
  }

  /**
   * `\s*(.+)$` after a comma: the greedy `\s*` ends at `b` first, then at
   * `b - 1`, ..., down to `lo`. The result is the largest borough start
   * in `lo..b` from which `(.+)$` matches, if any.
   */
  function TryBorough(s: string, lo: nat, b: nat): (r: Option<nat>)
    requires lo <= b
    ensures r.Some? ==> lo <= r.value <= b && RestFits(s, r.value)
    ensures r.Some? ==> forall j | r.value < j <= b :: !RestFits(s, j)
    ensures r.None? ==> forall j | lo <= j <= b :: !RestFits(s, j)
    decreases b
  {
    if RestFits(s, b) then Some(b)
    else if b > lo then TryBorough(s, lo, b - 1)
    else None
  }

  /**
   * `(?:,\s*(.+))?$` at `e`: the group is tried first, then skipped. It
   * fails exactly when neither the group nor the end of input matches.
   */
  function TryTail(s: string, e: nat): (r: Option<Option<nat>>)
    requires e <= |s|
    ensures r.Some? ==> TailFits(s, e, r.value)
    ensures r == Some(None) ==> forall b :: !GroupFits(s, e, b)
    ensures r.None? ==> e < |s| && forall b :: !GroupFits(s, e, b)
  {
    var group := if e < |s| && s[e] == ',' then TryBorough(s, e + 1, SpaceRunEnd(s, e + 1)) else None;
    assert forall b: nat | GroupFits(s, e, b) :: b <= SpaceRunEnd(s, e + 1) by {
      forall b: nat | GroupFits(s, e, b) ensures b <= SpaceRunEnd(s, e + 1) {
        SpaceRunIsLongest(s, e + 1, b);
      }
    }
    if group.Some? then Some(group)
    else if e == |s| then Some(None)
    else None
  }

  /**
   * The lazy `(.+?)` from `p`: the street ends at `e` first, then at
   * `e + 1`, ... as long as `.` matches. The street returned is the
   * shortest one the rest of the pattern accepts.
   */
  function TryStreet(s: string, p: nat, e: nat): (r: Option<(nat, Option<nat>)>)
    requires p < e <= |s| && NoBreakIn(s, p, e)
    ensures r.Some? ==> e <= r.value.0 <= |s| && NoBreakIn(s, p, r.value.0)
                        && TailFits(s, r.value.0, r.value.1)
    ensures r.Some? ==> TryTail(s, r.value.0) == Some(r.value.1)
    ensures r.Some? ==> forall i | e <= i < r.value.0 :: TryTail(s, i).None?
    ensures r.None? ==> forall e2 | e <= e2 <= |s| && NoBreakIn(s, p, e2) :: TryTail(s, e2).None?
    decreases |s| - e
  {
    match TryTail(s, e)
    case Some(g) => Some((e, g))
    case None =>
      if e < |s| && !IsLineBreak(s[e]) then
        assert NoBreakIn(s, p, e + 1);
        TryStreet(s, p, e + 1)
      else
        None
  }

  /** The street part `(.+?)` and everything after it, from `p`. */
  function StreetFrom(s: string, p: nat): (r: Option<(nat, Option<nat>)>)
    requires p <= |s|
  {
    if p < |s| && !IsLineBreak(s[p]) then TryStreet(s, p, p + 1) else None
  }

  /**
   * The greedy `\s+` after the house number `s[..k]`: the street starts at
   * `p` first, then at `p - 1`, ..., down to `k + 1`.
   */
  function TrySpaces(s: string, k: nat, p: nat): (r: Option<Split>)
    requires 0 < k < p <= |s| && DigitsIn(s, 0, k) && SpacesIn(s, k, p)
    ensures r.Some? ==> Fits(s, r.value) && r.value.houseEnd == k && r.value.streetStart <= p
    ensures r.None? ==> forall q | k < q <= p :: StreetFrom(s, q).None?
    decreases p
  {
    var street := StreetFrom(s, p);
    if street.Some? then Some(Split(k, p, street.value.0, street.value.1))
    else if p > k + 1 then TrySpaces(s, k, p - 1)
    else None
  }

  /** The greedy `\d+`: the house number ends at `k` first, then `k - 1`, ... */
  function TryDigits(s: string, k: nat): (r: Option<Split>)
    requires 0 < k <= |s| && DigitsIn(s, 0, k)
    ensures r.Some? ==> Fits(s, r.value) && r.value.houseEnd <= k
    decreases k
  {
    var q := SpaceRunEnd(s, k);
    var m := if q > k then TrySpaces(s, k, q) else None;
    if m.Some? then m
    else if k > 1 then TryDigits(s, k - 1)
    else None
  }

  /** `s.match(/^(\d+)\s+(.+?)(?:,\s*(.+))?$/)`: `None` stands for `null`. */
  function Match(s: string): (r: Option<Split>)
    ensures r.Some? ==> Fits(s, r.value)
  {
    var d := DigitRunEnd(s, 0);
    if d > 0 then TryDigits(s, d) else None
  }

  /** The captured house number, street and borough text. */
  function HouseNumber(s: string, sp: Split): string
    requires Fits(s, sp)
  {
    s[..sp.houseEnd]
  }

  function Street(s: string, sp: Split): string
    requires Fits(s, sp)
  {
    s[sp.streetStart..sp.streetEnd]
  }

  function Borough(s: string, sp: Split): Option<string>
    requires Fits(s, sp)
  {
    match sp.boroughStart
    case Some(b) => Some(s[b..])
    case None => None
  }

  /** Every way of fitting the pattern starts after the whole leading digit run. */
  lemma FitsHouseIsDigitRun(s: string, sp: Split)
    requires Fits(s, sp)
    ensures sp.houseEnd == DigitRunEnd(s, 0)
  {
    DigitRunIsLongest(s, 0, sp.houseEnd);
    assert IsSpace(s[sp.houseEnd]);
  }

  /** A tail that fits is found by `TryTail`. */
  lemma TailFound(s: string, e: nat, g: Option<nat>)
    requires e <= |s| && TailFits(s, e, g)
    ensures TryTail(s, e).Some?
  {
  }

  /**
   * Completeness: when the pattern can match `s` at all, `Match` does not
   * return `null`. With `Match`'s own postcondition this makes `Match`
   * succeed exactly on the strings the pattern matches.
   */
  lemma {:induction false} MatchComplete(s: string, sp: Split)
    requires Fits(s, sp)
    ensures Match(s).Some?
  {
    FitsHouseIsDigitRun(s, sp);
    var d := DigitRunEnd(s, 0);
    var q := SpaceRunEnd(s, d);
    SpaceRunIsLongest(s, d, sp.streetStart);
    TailFound(s, sp.streetEnd, sp.boroughStart);
    var p := sp.streetStart;
    assert !IsLineBreak(s[p]);
    assert StreetFrom(s, p).Some? by {
      assert NoBreakIn(s, p, p + 1);
      assert TryStreet(s, p, p + 1).Some?;
    }
    assert TrySpaces(s, d, q).Some?;
  }

  /** In trimmed text a run of white space never reaches the end. */
  lemma SpaceRunInside(s: string, i: nat)
    requires IsTrimmed(s) && i < |s|
    ensures SpaceRunEnd(s, i) < |s|
  {
    assert !IsSpace(s[|s| - 1]);
  }

  /**
   * "Starts with one or more digits, then white space, then at least one
   * more character."
   */
  predicate LooksStructured(s: string) {
    var d := DigitRunEnd(s, 0);
    0 < d && d + 1 < |s| && IsSpace(s[d])
  }

  /**
   * On trimmed text without line breaks, the pattern matches exactly the
   * strings that look structured; everything else is left unstructured.
   */
  lemma StructuredIff(s: string)
    requires IsTrimmed(s) && NoBreakIn(s, 0, |s|)
    ensures Match(s).Some? <==> LooksStructured(s)
  {
    var d := DigitRunEnd(s, 0);
    if Match(s).Some? {
      FitsHouseIsDigitRun(s, Match(s).value);
    }
    if LooksStructured(s) {
      var q := SpaceRunEnd(s, d);
      SpaceRunInside(s, d);
      MatchComplete(s, Split(d, q, |s|, None));
    }
  }

  /**
   * On structured trimmed text without line breaks, the first choice of the
   * greedy `\d+` and `\s+` is kept: the street starts after all of the
   * white space that follows the whole leading digit run.
   */
  lemma {:induction false} FirstChoiceKept(s: string)
    requires IsTrimmed(s) && NoBreakIn(s, 0, |s|) && LooksStructured(s)
    ensures var d := DigitRunEnd(s, 0);
      var q := SpaceRunEnd(s, d);
      && q < |s| && NoBreakIn(s, q, q + 1)
      && TryStreet(s, q, q + 1).Some?
      && Match(s) == Some(Split(d, q, TryStreet(s, q, q + 1).value.0, TryStreet(s, q, q + 1).value.1))
  {
    var d := DigitRunEnd(s, 0);
    SpaceRunInside(s, d);
    var q := SpaceRunEnd(s, d);
    assert NoBreakIn(s, q, q + 1);
    assert NoBreakIn(s, q, |s|);
    assert TryTail(s, |s|).Some?;
    var st := TryStreet(s, q, q + 1);
    assert st.Some?;
    assert StreetFrom(s, q) == st;
    assert q > d;
    assert TrySpaces(s, d, q) == Some(Split(d, q, st.value.0, st.value.1));
    assert TryDigits(s, d) == TrySpaces(s, d, q);
  }

  /**
   * How the match splits trimmed text without line breaks: the house number
   * is the whole leading digit run, the street starts after all of the white
   * space that follows it, the street runs up to the first comma after its
   * own first character that has something after it (any other comma inside
   * the street is its first character or the last character of the text), and the borough is what follows that comma and
   * the white space after it.
   */
  lemma {:induction false} StructuredSplit(s: string)
    requires IsTrimmed(s) && NoBreakIn(s, 0, |s|) && Match(s).Some?
    ensures var sp := Match(s).value;
      && sp.houseEnd == DigitRunEnd(s, 0)
      && sp.streetStart == SpaceRunEnd(s, sp.houseEnd)
      && (forall i | sp.streetStart < i < sp.streetEnd :: s[i] == ',' ==> i == |s| - 1)
      && (sp.boroughStart.Some? <==> sp.streetEnd < |s|)
      && (sp.streetEnd < |s| ==> s[sp.streetEnd] == ',')
      && (sp.boroughStart.Some? ==> sp.boroughStart.value == SpaceRunEnd(s, sp.streetEnd + 1))
  {
    StructuredIff(s);
    FirstChoiceKept(s);
    var q := SpaceRunEnd(s, DigitRunEnd(s, 0));
    var st := TryStreet(s, q, q + 1).value;
    var sp := Match(s).value;
    assert sp.streetStart == q && sp.streetEnd == st.0 && sp.boroughStart == st.1;
    assert TryTail(s, st.0) == Some(st.1);
    LazyStreet(s, q);
    if st.1.Some? {
      GreedyBoroughSpaces(s, st.0);
    }
  }

  /**
   * Without line breaks the lazy street stops at the first comma after its
   * own first character that has at least one character after it.
   */
  lemma LazyStreet(s: string, q: nat)
    requires NoBreakIn(s, 0, |s|) && q < |s| && NoBreakIn(s, q, q + 1) && TryStreet(s, q, q + 1).Some?
    ensures forall i | q < i < TryStreet(s, q, q + 1).value.0 :: s[i] == ',' ==> i == |s| - 1
  {
    var e := TryStreet(s, q, q + 1).value.0;
    forall i: nat | q < i < e && i + 1 < |s|
      ensures s[i] != ','
    {
      var b: nat := i + 1;
      assert TryTail(s, i).None?;
      assert !GroupFits(s, i, b);
      assert RestFits(s, b);
    }
  }

  /**
   * In trimmed text without line breaks the `\s*` after the comma takes all
   * of the white space there.
   */
  lemma GreedyBoroughSpaces(s: string, e: nat)
    requires IsTrimmed(s) && NoBreakIn(s, 0, |s|) && e <= |s|
    requires TryTail(s, e).Some? && TryTail(s, e).value.Some?
    ensures TryTail(s, e).value.value == SpaceRunEnd(s, e + 1)
  {
    var b := TryTail(s, e).value.value;
    SpaceRunInside(s, e + 1);
    var t := SpaceRunEnd(s, e + 1);
    assert RestFits(s, t);
    assert TryBorough(s, e + 1, t) == Some(b);
  }
}

=== FILE: query.dfy ===
/**
 * From the location text to the Socrata query parameters
 * (index.js lines 45-80): the text is upper-cased and trimmed, split by the
 * house-number pattern, the borough text goes through the alias table, and
 * the `$where` clauses are pushed onto a list and joined with ` AND `.
 * The user's text is pasted into the clauses as is: a quote in it is not
 * escaped.
 */
module Query {
  import opened Wrappers
  import opened Text
  import opened HousePattern

  /** `locationQuery.toUpperCase().trim()`. */
  function Normalize(raw: string): (n: string)
    ensures IsTrimmed(n) && NoLower(n)
  {
    TrimNoLower(ToUpper(raw));
    Trim(ToUpper(raw))
  }

  /** Normalizing twice gives what normalizing once gives. */
  lemma NormalizeIdempotent(raw: string)
    ensures Normalize(Normalize(raw)) == Normalize(raw)
  {
    var n := Normalize(raw);
    ToUpperNoLower(n);
    TrimTrimmed(n);
  }

  /** The borough alias table of index.js lines 64-70. */
  const BoroughMap: map<string, string> := map[
    "MANHATTAN" := "Manhattan",
    "BROOKLYN" := "Brooklyn",
    "QUEENS" := "Queens",
    "BRONX" := "Bronx",
    "STATEN ISLAND" := "Staten Island"]

  /** The five canonical borough names. */
  const Boroughs: set<string> := {"Manhattan", "Brooklyn", "Queens", "Bronx", "Staten Island"}

  /**
   * `boroughMap[borough] || borough`. The borough text comes from
   * upper-cased input, so it can never name one of the lower-case
   * properties every JavaScript object inherits; the lookup only ever hits
   * the five keys.
   */
  function BoroughName(b: string): string {
    if b in BoroughMap then BoroughMap[b] else b
  }

  /**
   * On upper-case borough text the alias table yields a canonical borough
   * name exactly for the five keys, and that name upper-cases back to the
   * key; any other text passes through unchanged and is never rejected.
   */
  lemma {:induction false} BoroughNameIff(b: string)
    requires NoLower(b)
    ensures BoroughName(b) in Boroughs <==> b in BoroughMap
    ensures b in BoroughMap ==> ToUpper(BoroughName(b)) == b
    ensures b !in BoroughMap ==> BoroughName(b) == b
  {
    if b in BoroughMap {
      AliasUpper(b);
    } else {
      NamesHaveLower();
    }
  }

  lemma AliasUpper(k: string)
    requires k in BoroughMap
    ensures ToUpper(BoroughMap[k]) == k
  {
    var r := BoroughMap[k];
    var u := ToUpper(r);
    assert |u| == |k|;
    forall i | 0 <= i < |k| ensures u[i] == k[i] {
      assert u[i] == UpperChar(r[i]);
    }
  }

  lemma NamesHaveLower()
    ensures forall x | x in Boroughs :: |x| > 1 && IsLower(x[1])
  {
  }

  /** The clause pushed for the house number (line 60). */
  function HouseClause(h: string): string {
    "house_number='" + h + "'"
  }

  /** The clause pushed for the street (lines 61 and 75). */
  function StreetClause(street: string): string {
    "UPPER(street_name) LIKE '%" + street + "%'"
  }

  /** The clause pushed for the borough (line 72). */
  function BoroughClause(b: string): string {
    "boroname='" + BoroughName(b) + "'"
  }

  /** `Array.prototype.join`. */
  function Join(parts: seq<string>, sep: string): string {
    if |parts| == 0 then ""
    else if |parts| == 1 then parts[0]
    else parts[0] + sep + Join(parts[1..], sep)
  }

  /** The clauses lines 54-76 push, in the order they push them. */
  function WhereClauses(n: string): seq<string> {
    match Match(n)
    case Some(sp) =>
      [HouseClause(HouseNumber(n, sp)), StreetClause(Street(n, sp))]
      + (match Borough(n, sp)
         case Some(b) => [BoroughClause(b)]
         case None => [])
    case None => [StreetClause(n)]
  }

  /** The Socrata parameters: `$limit`, `$select` and the optional `$where`. */
  datatype Params = Params(limit: nat, select: string, where: Option<string>)

  const Limit: nat := 5
  const Select: string := "house_number, street_name, boroname, latitude, longitude"
  const And: string := " AND "

  /** The parameters lines 49-80 build for normalized text `n`. */
  function ParamsFor(n: string): Params {
    var clauses := WhereClauses(n);
    Params(Limit, Select, if |clauses| > 0 then Some(Join(clauses, And)) else None)
  }

  lemma JoinPair(a: string, b: string, sep: string)
    ensures Join([a, b], sep) == a + sep + b
  {
    assert [a, b][1..] == [b];
  }

  lemma JoinTriple(a: string, b: string, c: string, sep: string)
    ensures Join([a, b, c], sep) == a + sep + b + sep + c
  {
    assert [a, b, c][1..] == [b, c];
    JoinPair(b, c, sep);
  }

  /**
   * Lines 49-80 as the source runs them: the clauses are pushed onto a list
   * one at a time, and `$where` is set only if the list is not empty, which
   * it never is.
   */
  method BuildParams(normalized: string) returns (params: Params)
    ensures params == ParamsFor(normalized)
    ensures params.where.Some?
  {
    params := Params(Limit, Select, None);
    var whereClauses: seq<string> := [];
    var houseMatch := Match(normalized);
    if houseMatch.Some? {
      var sp := houseMatch.value;
      whereClauses := whereClauses + [HouseClause(HouseNumber(normalized, sp))];
      whereClauses := whereClauses + [StreetClause(Street(normalized, sp))];
      var borough := Borough(normalized, sp);
      if borough.Some? {
        whereClauses := whereClauses + [BoroughClause(borough.value)];
      }
    } else {
      whereClauses := whereClauses + [StreetClause(normalized)];
    }
    assert whereClauses == WhereClauses(normalized);
    if |whereClauses| > 0 {
      params := params.(where := Some(Join(whereClauses, And)));
    }
  }

  /**
   * The `$where` text for structured input: the exact house number, the
   * street as a substring, and the borough only when the pattern captured
   * one, in that order and joined with ` AND `.
   */
  lemma WhereStructured(n: string)
    requires Match(n).Some?
    ensures var sp := Match(n).value;
      Borough(n, sp).None? ==>
        ParamsFor(n).where == Some(HouseClause(HouseNumber(n, sp)) + And + StreetClause(Street(n, sp)))
    ensures var sp := Match(n).value;
      Borough(n, sp).Some? ==>
        ParamsFor(n).where == Some(HouseClause(HouseNumber(n, sp)) + And + StreetClause(Street(n, sp))
                                   + And + BoroughClause(Borough(n, sp).value))
  {
    var sp := Match(n).value;
    var h, st := HouseClause(HouseNumber(n, sp)), StreetClause(Street(n, sp));
    match Borough(n, sp)
    case Some(b) =>
      assert WhereClauses(n) == [h, st, BoroughClause(b)];
      JoinTriple(h, st, BoroughClause(b), And);
    case None =>
      assert WhereClauses(n) == [h, st];
      JoinPair(h, st, And);
  }

  /**
   * Unstructured input gives one clause, a substring test on the whole
   * normalized text; so `$where` is set for every input.
   */
  lemma WhereUnstructured(n: string)
    requires Match(n).None?
    ensures ParamsFor(n).where == Some(StreetClause(n))
  {
  }

  /**
   * The whole normaliser, on input whose normalized text has no line break
   * (line breaks at either end are removed by the trim): the query is
   * structured exactly when the normalized text starts with digits, white
   * space and at least one more character, and then the house number is the
   * whole leading digit run and the street starts after all of the white
   * space that follows it; otherwise the one street clause holds the whole
   * normalized text.
   */
  lemma {:induction false} NormalizedWhere(raw: string)
    requires var n := Normalize(raw); NoBreakIn(n, 0, |n|)
    ensures var n := Normalize(raw);
      && (Match(n).Some? <==> LooksStructured(n))
      && (LooksStructured(n) ==>
            && Match(n).Some?
            && Match(n).value.houseEnd == DigitRunEnd(n, 0)
            && Match(n).value.streetStart == SpaceRunEnd(n, DigitRunEnd(n, 0)))
      && (!LooksStructured(n) ==> ParamsFor(n).where == Some(StreetClause(n)))
  {
    var n := Normalize(raw);
    StructuredIff(n);
    if LooksStructured(n) {
      StructuredSplit(n);
    } else {
      WhereUnstructured(n);
    }
  }

  /**
   * Text that is all white space normalizes to the empty string, and the
   * one clause it yields is `LIKE '%%'`, which matches every non-null
   * street name.
   */
  lemma BlankQueryMatchesAnyStreet(raw: string)
    requires SpacesIn(raw, 0, |raw|)
    ensures Normalize(raw) == ""
    ensures ParamsFor(Normalize(raw)).where == Some("UPPER(street_name) LIKE '%%'")
  {
    var u := ToUpper(raw);
    assert SpacesIn(u, 0, |u|) by {
      forall i | 0 <= i < |u| ensures IsSpace(u[i]) {
        assert IsSpace(raw[i]);
      }
    }
    assert Match("").None?;
    assert StreetClause("") == "UPPER(street_name) LIKE '%%'";
  }

  /** The number of quote characters in `s`. */
  function Quotes(s: string): nat {
    if s == [] then 0 else (if s[0] == '\'' then 1 else 0) + Quotes(s[1..])
  }

  /** A text with a quote in it has a positive quote count. */
  lemma QuoteCounted(s: string, j: nat)
    requires j < |s| && s[j] == '\''
    ensures Quotes(s) > 0
  {
    assert s == s[..j] + s[j..];
    QuotesAppend(s[..j], s[j..]);
  }

  lemma {:induction false} QuotesAppend(a: string, b: string)
    ensures Quotes(a + b) == Quotes(a) + Quotes(b)
    decreases |a|
  {
    if a != [] {
      QuotesAppend(a[1..], b);
      assert (a + b)[0] == a[0];
      assert (a + b)[1..] == a[1..] + b;
    } else {
      assert a + b == b;
    }
  }

  lemma {:induction false} QuoteFree(s: string)
    requires '\'' !in s
    ensures Quotes(s) == 0
    decreases |s|
  {
    if s != [] {
      assert s[0] != '\'';
      QuoteFree(s[1..]);
    }
  }

  /** Upper-casing neither adds nor removes a quote. */
  lemma {:induction false} QuotesUpper(s: string)
    ensures Quotes(ToUpper(s)) == Quotes(s)
    decreases |s|
  {
    if s != [] {
      var u := ToUpper(s);
      QuotesUpper(s[1..]);
      assert u[1..] == ToUpper(s[1..]);
      assert u[0] == UpperChar(s[0]);
    }
  }

  /** A stretch of white space holds no quote. */
  lemma SpacesQuoteFree(s: string, lo: nat, hi: nat)
    requires lo <= hi <= |s| && SpacesIn(s, lo, hi)
    ensures Quotes(s[lo..hi]) == 0
  {
    var t := s[lo..hi];
    assert forall i | 0 <= i < |t| :: t[i] == s[lo + i] && IsSpace(t[i]);
    QuoteFree(t);
  }

  /** Trimming removes only white space, so it keeps every quote. */
  lemma QuotesTrim(s: string)
    ensures Quotes(Trim(s)) == Quotes(s)
  {
    var r := Trim(s);
    if r == [] {
      SpacesQuoteFree(s, 0, |s|);
      assert s[0..|s|] == s;
    } else {
      var lo := SpaceRunEnd(s, 0);
      var hi := lo + |r|;
      assert s == s[0..lo] + r + s[hi..|s|];
      SpacesQuoteFree(s, 0, lo);
      SpacesQuoteFree(s, hi, |s|);
      QuotesAppend(s[0..lo], r);
      QuotesAppend(s[0..lo] + r, s[hi..|s|]);
    }
  }

  /** Normalizing keeps exactly the quotes the user typed. */
  lemma NormalizeKeepsQuotes(raw: string)
    ensures Quotes(Normalize(raw)) == Quotes(raw)
  {
    QuotesUpper(raw);
    QuotesTrim(ToUpper(raw));
  }

  lemma OpenQuotes(open: string)
    requires open == "UPPER(street_name) LIKE '%"
    ensures Quotes(open) == 1
  {
    var column := open[..24];
    assert open == column + ['\''] + ['%'];
    assert '\'' !in column;
    QuoteFree(column);
    QuotesAppend(column, ['\'']);
    QuotesAppend(column + ['\''], ['%']);
  }

  lemma CloseQuotes(close: string)
    requires close == "%'"
    ensures Quotes(close) == 1
  {
    var q := close[1..];
    assert close[0] != '\'' && q == ['\''];
    assert q[1..] == [];
    assert Quotes(q) == 1;
  }

  /** The street clause holds the quotes of its text and the two that delimit it. */
  lemma StreetClauseQuotes(st: string)
    ensures Quotes(StreetClause(st)) == Quotes(st) + 2
  {
    var open, close := "UPPER(street_name) LIKE '%", "%'";
    OpenQuotes(open);
    CloseQuotes(close);
    QuotesAppend(open, st);
    QuotesAppend(open + st, close);
  }

  /**
   * A quote in the location text closes the SQL string literal: for
   * unstructured text, the one `LIKE` clause holds every quote the user
   * typed, unescaped, besides the two that delimit its literal.
   */
  lemma QuoteIsNotEscaped(raw: string, k: nat)
    requires k < |raw| && raw[k] == '\''
    requires Match(Normalize(raw)).None?
    ensures var n := Normalize(raw);
      && ParamsFor(n).where == Some(StreetClause(n))
      && Quotes(ParamsFor(n).where.value) == Quotes(raw) + 2
      && Quotes(ParamsFor(n).where.value) > 2
  {
    var n := Normalize(raw);
    NormalizeKeepsQuotes(raw);
    QuoteCounted(raw, k);
    WhereUnstructured(n);
    StreetClauseQuotes(n);
  }

  /**
   * The text `x' or '1'='1` gives a `$where` whose condition is no longer a
   * single substring test.
   */
  lemma QuoteExample(raw: string)
    requires raw == "x' or '1'='1"
    ensures ParamsFor(Normalize(raw)).where
            == Some("UPPER(street_name) LIKE '%X' OR '1'='1%'")
  {
    QuoteNormalized(raw);
    QuoteWhere(Normalize(raw));
  }

  lemma QuoteNormalized(raw: string)
    requires raw == "x' or '1'='1"
    ensures Normalize(raw) == "X' OR '1'='1"
  {
    var u := ToUpper(raw);
    assert u == "X' OR '1'='1";
    TrimTrimmed(u);
  }

  lemma QuoteWhere(n: string)
    requires n == "X' OR '1'='1"
    ensures ParamsFor(n).where == Some("UPPER(street_name) LIKE '%X' OR '1'='1%'")
  {
    assert DigitRunEnd(n, 0) == 0;
    assert Match(n).None?;
    WhereUnstructured(n);
    assert StreetClause(n) == "UPPER(street_name) LIKE '%X' OR '1'='1%'";
  }

  lemma UpperExample()
    ensures Normalize("123 Main St, brooklyn") == "123 MAIN ST, BROOKLYN"
  {
    var n := "123 MAIN ST, BROOKLYN";
    assert ToUpper("123 Main St, brooklyn") == n;
    TrimTrimmed(n);
  }

  /** The house-number run, the street and the borough of the example. */
  lemma ExampleRuns(n: string)
    requires n == "123 MAIN ST, BROOKLYN"
    ensures DigitRunEnd(n, 0) == 3 && SpaceRunEnd(n, 3) == 4 && SpaceRunEnd(n, 12) == 13
  {
    assert DigitRunEnd(n, 3) == 3;
    assert DigitRunEnd(n, 2) == 3;
    assert DigitRunEnd(n, 1) == 3;
    assert SpaceRunEnd(n, 4) == 4;
    assert SpaceRunEnd(n, 13) == 13;
  }

  lemma ExampleShape(n: string)
    requires n == "123 MAIN ST, BROOKLYN"
    ensures IsTrimmed(n) && NoBreakIn(n, 0, |n|)
    ensures n[11] == ',' && forall i | 4 <= i < 11 :: n[i] != ','
  {
  }

  lemma SplitExample(n: string)
    requires n == "123 MAIN ST, BROOKLYN"
    ensures Match(n) == Some(Split(3, 4, 11, Some(13)))
  {
    ExampleRuns(n);
    ExampleShape(n);
    assert LooksStructured(n);
    StructuredIff(n);
    StructuredSplit(n);
  }

  /**
   * The example of a structured address: `123 Main St, brooklyn` becomes
   * house number `123`, street `MAIN ST` and borough `Brooklyn`.
   */
  lemma StructuredExample(raw: string)
    requires raw == "123 Main St, brooklyn"
    ensures BoroughName("BROOKLYN") == "Brooklyn"
    ensures ParamsFor(Normalize(raw)).where
            == Some(HouseClause("123") + And + StreetClause("MAIN ST") + And + BoroughClause("BROOKLYN"))
  {
    UpperExample();
    ExampleWhere(Normalize(raw));
  }

  lemma ExampleWhere(n: string)
    requires n == "123 MAIN ST, BROOKLYN"
    ensures ParamsFor(n).where
            == Some(HouseClause("123") + And + StreetClause("MAIN ST") + And + BoroughClause("BROOKLYN"))
  {
    SplitExample(n);
    ExampleCaptures(n, Split(3, 4, 11, Some(13)));
    WhereStructured(n);
  }

  lemma ExampleCaptures(n: string, sp: Split)
    requires n == "123 MAIN ST, BROOKLYN" && sp == Split(3, 4, 11, Some(13)) && Fits(n, sp)
    ensures HouseNumber(n, sp) == "123" && Street(n, sp) == "MAIN ST" && Borough(n, sp) == Some("BROOKLYN")
  {
  }
}

=== FILE: resolver.dfy ===
/**
 * The resolution chain of `geocodeNYCLocation` (index.js lines 36-134).
 * The three NYC Open Data endpoints are tried in their declared order with
 * the same parameters; the first reply with a usable first row decides the
 * result; a request that throws or a reply with no rows moves on to the
 * next endpoint; after all three, one free-text Nominatim search is made,
 * and its failure gives `null`.
 *
 * The network is a pair of functions from what is requested to what comes
 * back, so every statement here holds for every possible state of the
 * remote datasets. The requests the chain makes are recorded in a ghost
 * log.
 */
module Resolver {
  import opened Wrappers
  import opened Text
  import opened Query

  /** `NYC_APIS` (lines 39-43), in the order they are tried. */
  const NycApis: seq<string> := [
    "https://data.cityofnewyork.us/resource/uf93-f8nk.json",
    "https://data.cityofnewyork.us/resource/g6pj-hd8k.json",
    "https://data.cityofnewyork.us/resource/f55k-p6yu.json"]

  /** What the fallback appends to the caller's text (line 110). */
  const FallbackSuffix: string := ", New York City, NY, USA"

  /** The fixed part of the fallback's URL (line 111). */
  const NominatimSearchUrl: string := "https://nominatim.openstreetmap.org/search"
  const NominatimFormat: string := "json"
  const NominatimLimit: nat := 1
  const NominatimCountryCodes: string := "us"

  /**
   * One element of a JSON array in a reply: `null`, or any other value,
   * whose fields are read by name (a field a value lacks reads as absent).
   */
  datatype Row<T> = Null | Value(fields: T)

  /**
   * The outcome of one `axios.get`: it threw (network error, timeout,
   * non-success status), or it produced `response.data`. A `data` that is
   * falsy or has no positive `length` stands as an empty list of rows.
   */
  datatype Reply<T> = Thrown | Data(rows: seq<Row<T>>)

  /**
   * A row of the NYC address datasets, as the fields `$select` names. A
   * field is `None` when it is missing or `null`.
   */
  datatype AddressPoint = AddressPoint(
    houseNumber: Option<string>,
    streetName: Option<string>,
    boroname: Option<string>,
    latitude: Option<string>,
    longitude: Option<string>)

  /** A Nominatim search result. */
  datatype Place = Place(displayName: Option<string>, lat: Option<string>, lon: Option<string>)

  /**
   * A coordinate as the program holds it. Number parsing is not modelled:
   * `ParseFloat(f)` stands for what `parseFloat` returns on the raw field
   * `f` (NaN when it is absent or not numeric), and `Supplied(f)` for a
   * value a client sent, kept as it came.
   */
  datatype Coord = ParseFloat(raw: Option<string>) | Supplied(raw: Option<string>)

  /** `{lat, lng, formattedAddress}`; an absent `formattedAddress` is `None`. */
  datatype Geocoded = Geocoded(lat: Coord, lng: Coord, formattedAddress: Option<string>)

  /** A request the chain makes. */
  datatype Request =
    | SocrataGet(endpoint: string, params: Params)
    | NominatimSearch(url: string, q: string, format: string, limit: nat, countryCodes: string)

  /** `field || ''`. */
  function OrEmpty(field: Option<string>): string {
    field.GetOr("")
  }

  /**
   * The address line 98 formats: house number, street and borough, each
   * absent field read as empty, then trimmed. It always holds the comma that
   * separates street and borough, so it is never empty.
   */
  function FormatAddress(a: AddressPoint): (r: string)
    ensures ',' in r
  {
    var h, st := OrEmpty(a.houseNumber), OrEmpty(a.streetName);
    var t := h + " " + st + ", " + OrEmpty(a.boroname);
    TrimKeeps(t, |h| + 1 + |st|);
    Trim(t)
  }

  /** The result built from a NYC row (lines 95-99). */
  function FromAddressPoint(a: AddressPoint): Geocoded {
    Geocoded(ParseFloat(a.latitude), ParseFloat(a.longitude), Some(FormatAddress(a)))
  }

  /** The result built from a Nominatim row (lines 122-126). */
  function FromPlace(p: Place): Geocoded {
    Geocoded(ParseFloat(p.lat), ParseFloat(p.lon), p.displayName)
  }

  /**
   * The row a reply is decided by: `data[0]` when the request did not throw
   * and `data` is not empty. A `null` first row counts as a failure, since
   * reading its fields on the next line throws inside the `try`.
   */
  function FirstRow<T>(reply: Reply<T>): Option<T> {
    match reply
    case Thrown => None
    case Data(rows) => if |rows| > 0 && rows[0].Value? then Some(rows[0].fields) else None
  }

  /** The text the fallback searches for: the caller's own text, not normalized. */
  function FallbackQuery(locationQuery: string): string {
    locationQuery + FallbackSuffix
  }

  function FallbackRequest(locationQuery: string): Request {
    NominatimSearch(NominatimSearchUrl, FallbackQuery(locationQuery), NominatimFormat,
                    NominatimLimit, NominatimCountryCodes)
  }

  /** What the fallback yields (lines 109-130). */
  function FallbackResult(reply: Reply<Place>): Option<Geocoded> {
    match FirstRow(reply)
    case Some(p) => Some(FromPlace(p))
    case None => None
  }

  /** Trying the endpoints `apis` in order, then `fallback`. */
  function ResolveFrom(apis: seq<string>, params: Params,
                       nyc: (string, Params) -> Reply<AddressPoint>,
                       fallback: Option<Geocoded>): Option<Geocoded>
    decreases |apis|
  {
    if apis == [] then fallback
    else match FirstRow(nyc(apis[0], params))
      case Some(a) => Some(FromAddressPoint(a))
      case None => ResolveFrom(apis[1..], params, nyc, fallback)
  }

  /** The parameters every NYC request carries. */
  function ParamsOf(locationQuery: string): Params {
    ParamsFor(Normalize(locationQuery))
  }

  /** The outcome of `geocodeNYCLocation(locationQuery)`; `None` is `null`. */
  function Resolve(locationQuery: string,
                   nyc: (string, Params) -> Reply<AddressPoint>,
                   nominatim: string -> Reply<Place>): Option<Geocoded>
  {
    ResolveFrom(NycApis, ParamsOf(locationQuery), nyc,
                FallbackResult(nominatim(FallbackQuery(locationQuery))))
  }

  /** The requests made while trying `apis` in order, then the fallback. */
  ghost function TraceFrom(apis: seq<string>, params: Params,
                           nyc: (string, Params) -> Reply<AddressPoint>,
                           locationQuery: string): seq<Request>
    decreases |apis|
  {
    if apis == [] then [FallbackRequest(locationQuery)]
    else [SocrataGet(apis[0], params)]
         + (if FirstRow(nyc(apis[0], params)).Some? then []
            else TraceFrom(apis[1..], params, nyc, locationQuery))
  }

  /** The requests `geocodeNYCLocation(locationQuery)` makes, in order. */
  ghost function Trace(locationQuery: string, nyc: (string, Params) -> Reply<AddressPoint>): seq<Request> {
    TraceFrom(NycApis, ParamsOf(locationQuery), nyc, locationQuery)
  }

  /** Trying `apis[i..]`: the endpoint `apis[i]` is asked, and the rest only if it fails. */
  lemma StepFrom(apis: seq<string>, i: nat, params: Params,
                 nyc: (string, Params) -> Reply<AddressPoint>,
                 fallback: Option<Geocoded>, q: string)
    requires i < |apis|
    ensures ResolveFrom(apis[i..], params, nyc, fallback)
            == match FirstRow(nyc(apis[i], params))
               case Some(a) => Some(FromAddressPoint(a))
               case None => ResolveFrom(apis[i + 1..], params, nyc, fallback)
    ensures TraceFrom(apis[i..], params, nyc, q)
            == [SocrataGet(apis[i], params)]
               + (if FirstRow(nyc(apis[i], params)).Some? then []
                  else TraceFrom(apis[i + 1..], params, nyc, q))
  {
    assert apis[i..][1..] == apis[i + 1..];
  }

  /**
   * `geocodeNYCLocation` as the source runs it: normalize, build the
   * parameters, loop over the endpoints with an early return, then the
   * fallback. Its result is `Resolve` and its requests are `Trace`.
   */
  method Geocode(locationQuery: string,
                 nyc: (string, Params) -> Reply<AddressPoint>,
                 nominatim: string -> Reply<Place>)
    returns (result: Option<Geocoded>, ghost sent: seq<Request>)
    ensures result == Resolve(locationQuery, nyc, nominatim)
    ensures sent == Trace(locationQuery, nyc)
  {
    var normalized := Normalize(locationQuery);
    var params := BuildParams(normalized);
    result, sent := TryEndpoints(NycApis, params, nyc, nominatim, locationQuery);
  }

  /**
   * The loop of `geocodeNYCLocation` over the endpoints `apis`, each asked
   * with `params` and the first usable reply returned at once, then the
   * fallback search for the caller's text `locationQuery`.
   */
  method TryEndpoints(apis: seq<string>, params: Params,
                      nyc: (string, Params) -> Reply<AddressPoint>,
                      nominatim: string -> Reply<Place>, locationQuery: string)
    returns (result: Option<Geocoded>, ghost sent: seq<Request>)
    ensures result == ResolveFrom(apis, params, nyc, FallbackResult(nominatim(FallbackQuery(locationQuery))))
    ensures sent == TraceFrom(apis, params, nyc, locationQuery)
  {
    ghost var fallback := FallbackResult(nominatim(FallbackQuery(locationQuery)));
    assert apis[0..] == apis;
    sent := [];
    for i := 0 to |apis|
      invariant ResolveFrom(apis[i..], params, nyc, fallback) == ResolveFrom(apis, params, nyc, fallback)
      invariant sent + TraceFrom(apis[i..], params, nyc, locationQuery)
                == TraceFrom(apis, params, nyc, locationQuery)
    {
      var apiUrl := apis[i];
      StepFrom(apis, i, params, nyc, fallback, locationQuery);
      sent := sent + [SocrataGet(apiUrl, params)];
      var response := nyc(apiUrl, params);
      if response.Data? && |response.rows| > 0 {
        match response.rows[0]
        case Value(firstResult) =>
          result := Some(FromAddressPoint(firstResult));
          return;
        case Null =>
          // reading a field of `null` throws; the catch moves on
      }
    }
    var query := FallbackQuery(locationQuery);
    sent := sent + [FallbackRequest(locationQuery)];
    var response := nominatim(query);
    if response.Data? && |response.rows| > 0 && response.rows[0].Value? {
      result := Some(FromPlace(response.rows[0].fields));
    } else {
      result := None;
    }
  }

  /** The endpoints `apis` requested in order with the same parameters. */
  function Requests(apis: seq<string>, params: Params): seq<Request> {
    seq(|apis|, j requires 0 <= j < |apis| => SocrataGet(apis[j], params))
  }

  lemma {:induction false} FirstHitFrom(apis: seq<string>, params: Params,
                                        nyc: (string, Params) -> Reply<AddressPoint>,
                                        fallback: Option<Geocoded>, q: string, i: nat)
    requires i < |apis|
    requires forall j | 0 <= j < i :: FirstRow(nyc(apis[j], params)).None?
    requires FirstRow(nyc(apis[i], params)).Some?
    ensures ResolveFrom(apis, params, nyc, fallback)
            == Some(FromAddressPoint(FirstRow(nyc(apis[i], params)).value))
    ensures TraceFrom(apis, params, nyc, q) == Requests(apis[..i + 1], params)
    decreases i
  {
    if i > 0 {
      FirstHitFrom(apis[1..], params, nyc, fallback, q, i - 1);
      assert [SocrataGet(apis[0], params)] + Requests(apis[1..][..i], params)
             == Requests(apis[..i + 1], params);
    }
  }

  lemma {:induction false} NoHitFrom(apis: seq<string>, params: Params,
                                     nyc: (string, Params) -> Reply<AddressPoint>,
                                     fallback: Option<Geocoded>, q: string)
    requires forall j | 0 <= j < |apis| :: FirstRow(nyc(apis[j], params)).None?
    ensures ResolveFrom(apis, params, nyc, fallback) == fallback
    ensures TraceFrom(apis, params, nyc, q) == Requests(apis, params) + [FallbackRequest(q)]
    decreases |apis|
  {
    if apis != [] {
      NoHitFrom(apis[1..], params, nyc, fallback, q);
      assert [SocrataGet(apis[0], params)] + Requests(apis[1..], params) == Requests(apis, params);
    }
  }

  /**
   * The first endpoint, in declared order, whose reply has a usable first
   * row decides the result, built from that row whatever its coordinates
   * hold; the endpoints before it were all asked with the same parameters,
   * and no later endpoint and not the fallback are asked.
   */
  lemma FirstUsableSourceDecides(q: string, nyc: (string, Params) -> Reply<AddressPoint>,
                                 nominatim: string -> Reply<Place>, i: nat)
    requires i < |NycApis|
    requires forall j | 0 <= j < i :: FirstRow(nyc(NycApis[j], ParamsOf(q))).None?
    requires FirstRow(nyc(NycApis[i], ParamsOf(q))).Some?
    ensures Resolve(q, nyc, nominatim)
            == Some(FromAddressPoint(FirstRow(nyc(NycApis[i], ParamsOf(q))).value))
    ensures Trace(q, nyc) == Requests(NycApis[..i + 1], ParamsOf(q))
  {
    FirstHitFrom(NycApis, ParamsOf(q), nyc, FallbackResult(nominatim(FallbackQuery(q))), q, i);
  }

  /**
   * When every endpoint throws or has no usable first row, all three are
   * asked, in order, and then the fallback, whose outcome is the result.
   */
  lemma AllSourcesFailed(q: string, nyc: (string, Params) -> Reply<AddressPoint>,
                         nominatim: string -> Reply<Place>)
    requires forall j | 0 <= j < |NycApis| :: FirstRow(nyc(NycApis[j], ParamsOf(q))).None?
    ensures Resolve(q, nyc, nominatim) == FallbackResult(nominatim(FallbackQuery(q)))
    ensures Trace(q, nyc) == Requests(NycApis, ParamsOf(q)) + [FallbackRequest(q)]
  {
    NoHitFrom(NycApis, ParamsOf(q), nyc, FallbackResult(nominatim(FallbackQuery(q))), q);
  }

  /** The result is `null` exactly when all three endpoints and the fallback fail. */
  lemma {:induction false} NotFoundFrom(apis: seq<string>, params: Params,
                                        nyc: (string, Params) -> Reply<AddressPoint>,
                                        fallback: Option<Geocoded>)
    ensures ResolveFrom(apis, params, nyc, fallback).None?
            <==> (forall j | 0 <= j < |apis| :: FirstRow(nyc(apis[j], params)).None?) && fallback.None?
    decreases |apis|
  {
    if apis != [] {
      NotFoundFrom(apis[1..], params, nyc, fallback);
      assert forall j | 0 <= j < |apis| - 1 :: apis[1..][j] == apis[j + 1];
    }
  }

  lemma NotFoundIff(q: string, nyc: (string, Params) -> Reply<AddressPoint>,
                    nominatim: string -> Reply<Place>)
    ensures Resolve(q, nyc, nominatim).None?
            <==> (forall j | 0 <= j < |NycApis| :: FirstRow(nyc(NycApis[j], ParamsOf(q))).None?)
                 && FirstRow(nominatim(FallbackQuery(q))).None?
  {
    NotFoundFrom(NycApis, ParamsOf(q), nyc, FallbackResult(nominatim(FallbackQuery(q))));
  }

  lemma {:induction false} TraceShapeFrom(apis: seq<string>, params: Params,
                                          nyc: (string, Params) -> Reply<AddressPoint>, q: string)
    ensures var t := TraceFrom(apis, params, nyc, q);
      FallbackRequest(q) in t <==> forall j | 0 <= j < |apis| :: FirstRow(nyc(apis[j], params)).None?
    ensures var t := TraceFrom(apis, params, nyc, q);
      forall k | 0 <= k < |t| :: t[k].SocrataGet? ==> k < |apis| && t[k] == SocrataGet(apis[k], params)
    decreases |apis|
  {
    if apis != [] {
      TraceShapeFrom(apis[1..], params, nyc, q);
      var t := TraceFrom(apis, params, nyc, q);
      var rest := if FirstRow(nyc(apis[0], params)).Some? then [] else TraceFrom(apis[1..], params, nyc, q);
      assert t == [SocrataGet(apis[0], params)] + rest;
      forall k | 0 < k < |t| ensures t[k] == rest[k - 1] { }
      if FirstRow(nyc(apis[0], params)).None? {
        assert forall j | 0 <= j < |apis| - 1 :: apis[1..][j] == apis[j + 1];
      }
    }
  }

  /**
   * The fallback is asked exactly when all three endpoints failed, and
   * every NYC request is the endpoint of its position in `NYC_APIS` with
   * the one set of parameters.
   */
  lemma FallbackOnlyAfterAllFail(q: string, nyc: (string, Params) -> Reply<AddressPoint>)
    ensures FallbackRequest(q) in Trace(q, nyc)
            <==> forall j | 0 <= j < |NycApis| :: FirstRow(nyc(NycApis[j], ParamsOf(q))).None?
    ensures var t := Trace(q, nyc);
      forall k | 0 <= k < |t| :: t[k].SocrataGet? ==> k < |NycApis| && t[k] == SocrataGet(NycApis[k], ParamsOf(q))
  {
    TraceShapeFrom(NycApis, ParamsOf(q), nyc, q);
  }

  lemma {:induction false} SameFirstRowsFrom(apis: seq<string>, params: Params,
                                             nyc1: (string, Params) -> Reply<AddressPoint>,
                                             nyc2: (string, Params) -> Reply<AddressPoint>,
                                             fallback: Option<Geocoded>, q: string)
    requires forall j | 0 <= j < |apis| :: FirstRow(nyc1(apis[j], params)) == FirstRow(nyc2(apis[j], params))
    ensures ResolveFrom(apis, params, nyc1, fallback) == ResolveFrom(apis, params, nyc2, fallback)
    ensures TraceFrom(apis, params, nyc1, q) == TraceFrom(apis, params, nyc2, q)
    decreases |apis|
  {
    if apis != [] {
      SameFirstRowsFrom(apis[1..], params, nyc1, nyc2, fallback, q);
    }
  }

  /**
   * Only the first row of each reply matters: a request that throws, an
   * empty reply and a reply whose first element is `null` are handled
   * alike, and the rows after the first are never looked at.
   */
  lemma OnlyFirstRowsMatter(q: string, nyc1: (string, Params) -> Reply<AddressPoint>,
                            nyc2: (string, Params) -> Reply<AddressPoint>,
                            nominatim: string -> Reply<Place>)
    requires forall j | 0 <= j < |NycApis| ::
               FirstRow(nyc1(NycApis[j], ParamsOf(q))) == FirstRow(nyc2(NycApis[j], ParamsOf(q)))
    ensures Resolve(q, nyc1, nominatim) == Resolve(q, nyc2, nominatim)
    ensures Trace(q, nyc1) == Trace(q, nyc2)
  {
    SameFirstRowsFrom(NycApis, ParamsOf(q), nyc1, nyc2,
                      FallbackResult(nominatim(FallbackQuery(q))), q);
  }

  /**
   * With a house number and a borough that have no white space at their
   * outer ends, the formatted address is `<house> <street>, <borough>`.
   */
  lemma FormatAddressPlain(a: AddressPoint)
    requires a.houseNumber.Some? && a.houseNumber.value != [] && !IsSpace(a.houseNumber.value[0])
    requires a.boroname.Some? && a.boroname.value != []
    requires !IsSpace(a.boroname.value[|a.boroname.value| - 1])
    ensures FormatAddress(a)
            == a.houseNumber.value + " " + OrEmpty(a.streetName) + ", " + a.boroname.value
  {
    var t := a.houseNumber.value + " " + OrEmpty(a.streetName) + ", " + a.boroname.value;
    assert t[0] == a.houseNumber.value[0];
    assert t[|t| - 1] == a.boroname.value[|a.boroname.value| - 1];
    TrimTrimmed(t);
  }

  /** A row with none of the address fields formats as a lone comma. */
  lemma FormatAddressEmpty(a: AddressPoint)
    requires a.houseNumber.None? && a.streetName.None? && a.boroname.None?
    ensures FormatAddress(a) == ","
  {
    var t := " " + ", ";
    assert t == [' ', ',', ' '];
    assert SpaceRunEnd(t, 0) == 1;
    assert SpaceRunStart(t, 3) == 2;
  }

  /**
   * A reply row for `123 Main St, Brooklyn` from the first endpoint is
   * taken as it is: the address reads `123 MAIN STREET, Brooklyn`, the
   * coordinates are the parsed fields, and nothing else is asked.
   */
  lemma BrooklynExample(q: string, nyc: (string, Params) -> Reply<AddressPoint>,
                        nominatim: string -> Reply<Place>, a: AddressPoint)
    requires a == AddressPoint(Some("123"), Some("MAIN STREET"), Some("Brooklyn"),
                               Some("40.650"), Some("-73.949"))
    requires nyc(NycApis[0], ParamsOf(q)) == Data([Value(a)])
    ensures Resolve(q, nyc, nominatim)
            == Some(Geocoded(ParseFloat(Some("40.650")), ParseFloat(Some("-73.949")),
                             Some("123 MAIN STREET, Brooklyn")))
    ensures Trace(q, nyc) == [SocrataGet(NycApis[0], ParamsOf(q))]
  {
    FirstUsableSourceDecides(q, nyc, nominatim, 0);
    FormatExample(a);
    assert Requests(NycApis[..1], ParamsOf(q)) == [SocrataGet(NycApis[0], ParamsOf(q))];
  }

  lemma FormatExample(a: AddressPoint)
    requires a.houseNumber == Some("123") && a.streetName == Some("MAIN STREET")
    requires a.boroname == Some("Brooklyn")
    ensures FormatAddress(a) == "123 MAIN STREET, Brooklyn"
  {
    ExampleLine(a.houseNumber.value, a.streetName.value, a.boroname.value);
    FormatAddressPlain(a);
  }

  lemma ExampleLine(h: string, st: string, b: string)
    requires h == "123" && st == "MAIN STREET" && b == "Brooklyn"
    ensures h != [] && !IsSpace(h[0]) && b != [] && !IsSpace(b[|b| - 1])
    ensures h + " " + st + ", " + b == "123 MAIN STREET, Brooklyn"
  {
  }

  /**
   * Coordinates are not checked: a first row whose latitude is not a number
   * still decides the result, and the next endpoint is not asked.
   */
  lemma NonNumericCoordinateWins(q: string, nyc: (string, Params) -> Reply<AddressPoint>,
                                 nominatim: string -> Reply<Place>, a: AddressPoint)
    requires a.latitude == Some("not a number")
    requires FirstRow(nyc(NycApis[0], ParamsOf(q))) == Some(a)
    ensures Resolve(q, nyc, nominatim).Some?
    ensures Resolve(q, nyc, nominatim).value.lat == ParseFloat(Some("not a number"))
    ensures |Trace(q, nyc)| == 1
  {
    FirstUsableSourceDecides(q, nyc, nominatim, 0);
  }
}

=== FILE: routes.dfy ===
/**
 * The decisions of the two route handlers that call the geocoder:
 * `GET /api/geocode` (index.js lines 151-168) and `POST /api/connections`
 * (lines 171-211). Saving goes through a store given as a function, and
 * the `newConnection` broadcast is returned as the record it would carry.
 */
module Routes {
  import opened Wrappers
  import opened Query
  import opened Resolver

  /**
   * `req.query.q`: absent, a string, or a value of another kind that the
   * query-string parser builds (an array for a repeated key, an object for
   * a bracketed one).
   */
  datatype QueryValue = Missing | Text(value: string) | NotText

  /** The document handed to the store (lines 194-199). */
  datatype Connection = Connection(title: string, location: string, description: string,
                                   lat: Coord, lng: Coord)

  datatype Body = Error(error: string) | Location(result: Geocoded) | Created(connection: Connection)

  datatype Response = Response(status: nat, body: Body)

  /**
   * The JSON body of `POST /api/connections`. A field is `None` when it is
   * missing or `null`; `coordinates` is what the client sent, if anything.
   */
  datatype ConnectionRequest = ConnectionRequest(
    title: Option<string>,
    location: Option<string>,
    description: Option<string>,
    coordinates: Option<Geocoded>)

  /** What `newConnection.save()` does: store the document, or throw. */
  datatype SaveOutcome = Saved | SaveFailed(message: string)

  const MissingQuery: string := "missing query parameter q"
  const NotFound: string := "uh oh, location not found :("
  const GeocodeFailed: string := "failed to geocode location"
  const FieldsRequired: string := "location and description are required"
  const NotInNyc: string := "Could not find that NYC location"
  const CreateFailed: string := "failed to create connection: "
  const DefaultTitle: string := "anonymous"

  /** JavaScript truthiness of an optional string: present and not empty. */
  predicate Truthy(v: Option<string>) {
    v.Some? && v.value != ""
  }

  /**
   * `GET /api/geocode`: a missing or empty `q` is a 400 before any request
   * is made; a `q` that is not a string makes `toUpperCase` throw, which is
   * a 500; otherwise the geocoder's result is a 200 and its `null` a 404.
   * Not finding a location is never a 500.
   */
  method GetGeocode(q: QueryValue,
                    nyc: (string, Params) -> Reply<AddressPoint>,
                    nominatim: string -> Reply<Place>)
    returns (response: Response)
    ensures q.Missing? || q == Text("") ==> response == Response(400, Error(MissingQuery))
    ensures q.NotText? ==> response == Response(500, Error(GeocodeFailed))
    ensures q.Text? && q.value != "" ==>
              match Resolve(q.value, nyc, nominatim)
              case Some(g) => response == Response(200, Location(g))
              case None => response == Response(404, Error(NotFound))
    ensures response.status == 500 <==> q.NotText?
  {
    if q.Missing? || q == Text("") {
      return Response(400, Error(MissingQuery));
    }
    if q.NotText? {
      return Response(500, Error(GeocodeFailed));
    }
    var result, sent := Geocode(q.value, nyc, nominatim);
    if result.Some? {
      response := Response(200, Location(result.value));
    } else {
      response := Response(404, Error(NotFound));
    }
  }

  /**
   * The document lines 188-199 assemble from the request and the geocoding
   * result. The `||` defaults leave no field of the document empty: the
   * title is the client's or `anonymous`, the location is the formatted
   * address or the client's text, and the coordinates are the result's.
   */
  function NewConnection(body: ConnectionRequest, g: Geocoded): (c: Connection)
    requires Truthy(body.location) && Truthy(body.description)
    ensures c.title != "" && c.location != "" && c.description != ""
    ensures c.title == DefaultTitle || Some(c.title) == body.title
    ensures c.location == body.location.value || Some(c.location) == g.formattedAddress
    ensures c.lat == g.lat && c.lng == g.lng
  {
    Connection(
      if Truthy(body.title) then body.title.value else DefaultTitle,
      if Truthy(g.formattedAddress) then g.formattedAddress.value else body.location.value,
      body.description.value,
      g.lat,
      g.lng)
  }

  /**
   * `POST /api/connections`: a missing or empty location or description is
   * a 400 before anything else; coordinates the client sent are taken as
   * they are and the geocoder is skipped; otherwise a `null` from the
   * geocoder is a 400 (not a 404); a stored document is a 201 and is
   * broadcast, and a store that throws is a 500 with nothing broadcast.
   */
  method PostConnection(body: ConnectionRequest,
                        nyc: (string, Params) -> Reply<AddressPoint>,
                        nominatim: string -> Reply<Place>,
                        save: Connection -> SaveOutcome)
    returns (response: Response, broadcast: Option<Connection>)
    ensures !Truthy(body.location) || !Truthy(body.description) ==>
              response == Response(400, Error(FieldsRequired)) && broadcast.None?
    ensures Truthy(body.location) && Truthy(body.description) ==>
              var found := if body.coordinates.Some? then body.coordinates
                           else Resolve(body.location.value, nyc, nominatim);
              match found
              case None => response == Response(400, Error(NotInNyc)) && broadcast.None?
              case Some(g) =>
                var c := NewConnection(body, g);
                match save(c)
                case Saved => response == Response(201, Created(c)) && broadcast == Some(c)
                case SaveFailed(m) =>
                  response == Response(500, Error(CreateFailed + m)) && broadcast.None?
    ensures broadcast.Some? <==> response.status == 201
  {
    broadcast := None;
    if !Truthy(body.location) || !Truthy(body.description) {
      return Response(400, Error(FieldsRequired)), broadcast;
    }
    var geocodeResult := body.coordinates;
    if geocodeResult.None? {
      ghost var sent;
      geocodeResult, sent := Geocode(body.location.value, nyc, nominatim);
    }
    if geocodeResult.None? {
      return Response(400, Error(NotInNyc)), broadcast;
    }
    var newConnection := NewConnection(body, geocodeResult.value);
    match save(newConnection)
    case Saved =>
      broadcast := Some(newConnection);
      response := Response(201, Created(newConnection));
    case SaveFailed(message) =>
      response := Response(500, Error(CreateFailed + message));
  }

  /**
   * When a NYC endpoint answered, the stored location is its formatted
   * address: that address always holds a comma, so the `|| location`
   * fallback is never taken.
   */
  lemma NycAddressIsStored(body: ConnectionRequest, a: AddressPoint)
    requires Truthy(body.location) && Truthy(body.description)
    ensures NewConnection(body, FromAddressPoint(a)).location == FormatAddress(a)
    ensures ',' in NewConnection(body, FromAddressPoint(a)).location
  {
  }

  /**
   * When the fallback answered without a display name, the client's own
   * text is stored as the location.
   */
  lemma UnnamedPlaceKeepsClientText(body: ConnectionRequest, p: Place)
    requires Truthy(body.location) && Truthy(body.description)
    requires !Truthy(p.displayName)
    ensures NewConnection(body, FromPlace(p)).location == body.location.value
  {
  }
}

=== FILE: text.dfy ===
/**
 * The character classes and string operations of JavaScript that the
 * geocoder relies on: `\d`, `\s`, `.` (in a regular expression without
 * flags), `String.prototype.trim` and `String.prototype.toUpperCase`.
 */
module Text {

  /** `\d`: an ASCII decimal digit. */
  predicate IsDigit(c: char) {
    '0' <= c <= '9'
  }

  /**
   * `\s`, and the characters `trim` removes: ECMAScript's WhiteSpace
   * (tab, vertical tab, form feed, space, no-break space, the byte order
   * mark and the other space separators) and LineTerminator (line feed,
   * carriage return, line and paragraph separators).
   */
  predicate IsSpace(c: char) {
    var n := c as int;
    n == 0x09 || n == 0x0A || n == 0x0B || n == 0x0C || n == 0x0D || n == 0x20
    || n == 0xA0 || n == 0x1680 || (0x2000 <= n <= 0x200A)
    || n == 0x2028 || n == 0x2029 || n == 0x202F || n == 0x205F || n == 0x3000
    || n == 0xFEFF
  }

  /** A LineTerminator: the characters `.` does not match. */
  predicate IsLineBreak(c: char) {
    var n := c as int;
    n == 0x0A || n == 0x0D || n == 0x2028 || n == 0x2029
  }

  predicate IsLower(c: char) {
    'a' <= c <= 'z'
  }

  predicate DigitsIn(s: string, lo: int, hi: int)
    requires 0 <= lo <= hi <= |s|
  {
    forall i | lo <= i < hi :: IsDigit(s[i])
  }

  predicate SpacesIn(s: string, lo: int, hi: int)
    requires 0 <= lo <= hi <= |s|
  {
    forall i | lo <= i < hi :: IsSpace(s[i])
  }

  /** Every character of `s[lo..hi]` is matched by `.`. */
  predicate NoBreakIn(s: string, lo: int, hi: int)
    requires 0 <= lo <= hi <= |s|
  {
    forall i | lo <= i < hi :: !IsLineBreak(s[i])
  }

  /** No ASCII lower-case letter occurs in `s`. */
  predicate NoLower(s: string) {
    forall i | 0 <= i < |s| :: !IsLower(s[i])
  }

  /** Neither end of `s` is white space: what `trim` leaves. */
  predicate IsTrimmed(s: string) {
    s == [] || (!IsSpace(s[0]) && !IsSpace(s[|s| - 1]))
  }

  /** End of the longest run of digits starting at `i`. */
  function DigitRunEnd(s: string, i: nat): (j: nat)
    requires i <= |s|
    ensures i <= j <= |s| && DigitsIn(s, i, j)
    ensures j == |s| || !IsDigit(s[j])
    decreases |s| - i
  {
    if i < |s| && IsDigit(s[i]) then DigitRunEnd(s, i + 1) else i
  }

  /** End of the longest run of white space starting at `i`. */
  function SpaceRunEnd(s: string, i: nat): (j: nat)
    requires i <= |s|
    ensures i <= j <= |s| && SpacesIn(s, i, j)
    ensures j == |s| || !IsSpace(s[j])
    decreases |s| - i
  {
    if i < |s| && IsSpace(s[i]) then SpaceRunEnd(s, i + 1) else i
  }

  /** A run of white space from `i` never reaches past the longest one. */
  lemma SpaceRunIsLongest(s: string, i: nat, b: nat)
    requires i <= b <= |s| && SpacesIn(s, i, b)
    ensures b <= SpaceRunEnd(s, i)
  {
  }

  /** A run of digits from `i` never reaches past the longest one. */
  lemma DigitRunIsLongest(s: string, i: nat, b: nat)
    requires i <= b <= |s| && DigitsIn(s, i, b)
    ensures b <= DigitRunEnd(s, i)
  {
  }

  /** Start of the longest run of white space ending at `j`. */
  function SpaceRunStart(s: string, j: nat): (i: nat)
    requires j <= |s|
    ensures i <= j && SpacesIn(s, i, j)
    ensures i == 0 || !IsSpace(s[i - 1])
    decreases j
  {
    if j > 0 && IsSpace(s[j - 1]) then SpaceRunStart(s, j - 1) else j
  }

  /** `toUpperCase` on one character; only ASCII letters are mapped. */
  function UpperChar(c: char): (u: char)
    ensures !IsLower(u)
    ensures IsLower(c) ==> u as int == c as int - 32
    ensures !IsLower(c) ==> u == c
  {
    if IsLower(c) then (c as int - 32) as char else c
  }

  /** `String.prototype.toUpperCase`, restricted to ASCII letters. */
  function ToUpper(s: string): (r: string)
    ensures |r| == |s| && NoLower(r)
    ensures forall i | 0 <= i < |s| && IsLower(s[i]) :: r[i] as int == s[i] as int - 32
    ensures forall i | 0 <= i < |s| && !IsLower(s[i]) :: r[i] == s[i]
  {
    seq(|s|, i requires 0 <= i < |s| => UpperChar(s[i]))
  }

  /** Upper-casing text that has no lower-case letter changes nothing. */
  lemma ToUpperNoLower(s: string)
    requires NoLower(s)
    ensures ToUpper(s) == s
  {
  }

  /**
   * `String.prototype.trim`: `s` without its leading and trailing white
   * space. What is left is trimmed, is empty exactly when `s` is all white
   * space, and otherwise is the piece of `s` that starts after the leading
   * white space and is followed only by white space.
   */
  function Trim(s: string): (r: string)
    ensures IsTrimmed(r)
    ensures r == [] <==> SpacesIn(s, 0, |s|)
    ensures r != [] ==> SpaceRunEnd(s, 0) + |r| <= |s|
                        && r == s[SpaceRunEnd(s, 0)..SpaceRunEnd(s, 0) + |r|]
                        && SpacesIn(s, SpaceRunEnd(s, 0) + |r|, |s|)
  {
    var lo := SpaceRunEnd(s, 0);
    var hi := SpaceRunStart(s, |s|);
    if lo < hi then s[lo..hi] else []
  }

  /** `trim` leaves trimmed text as it is. */
  lemma TrimTrimmed(s: string)
    requires IsTrimmed(s)
    ensures Trim(s) == s
  {
  }

  /** Trimming keeps a text free of lower-case letters. */
  lemma TrimNoLower(s: string)
    requires NoLower(s)
    ensures NoLower(Trim(s))
  {
    var r := Trim(s);
    var lo := SpaceRunEnd(s, 0);
    forall i | 0 <= i < |r| ensures !IsLower(r[i]) {
      assert r[i] == s[lo + i];
    }
  }

  /** `trim` keeps every character that is not white space. */
  lemma TrimKeeps(s: string, k: nat)
    requires k < |s| && !IsSpace(s[k])
    ensures var r := Trim(s); var lo := SpaceRunEnd(s, 0);
      r != [] && lo <= k < lo + |r| && r[k - lo] == s[k]
  {
    var r := Trim(s);
    OutsideSpaces(s, 0, |s|, k);
    assert r != [];
    KeptInSlice(s, SpaceRunEnd(s, 0), r, k);
  }

  /** A character that is not white space, with only white space around the slice `r`, lies in `r`. */
  lemma KeptInSlice(s: string, lo: nat, r: string, k: nat)
    requires lo + |r| <= |s| && r == s[lo..lo + |r|]
    requires SpacesIn(s, 0, lo) && SpacesIn(s, lo + |r|, |s|)
    requires k < |s| && !IsSpace(s[k])
    ensures lo <= k < lo + |r| && r[k - lo] == s[k]
  {
    OutsideSpaces(s, 0, lo, k);
    OutsideSpaces(s, lo + |r|, |s|, k);
  }

  /** A character that is not white space lies outside every run of white space. */
  lemma OutsideSpaces(s: string, lo: nat, hi: nat, k: nat)
    requires lo <= hi <= |s| && k < |s| && !IsSpace(s[k])
    ensures SpacesIn(s, lo, hi) ==> !(lo <= k < hi)
  {
  }
}

=== FILE: wrappers.dfy ===
/** Optional values, standing for JavaScript's `undefined`/`null` where a field may be absent. */
module Wrappers {
  datatype Option<+T> = None | Some(value: T) {
    /** The value, or `default` when absent. */
    function GetOr(default: T): T {
      match this
      case Some(v) => v
      case None => default
    }
  }
}
